=== FILE: README.md ===
# Dual-write proxy and user store — a Dafny model

This project models two sequential cores of `simple_proxy`:

1. **The dual-write filter of `DualWriteProxy`** (`src/lib.rs`), a pingora
   reverse proxy. Every request goes to the fixed primary backend at
   `127.0.0.1:3000`, with the header `user-content: dual-write`. An inbound
   request can lack the loop marker `x-dual-write-executed`. Then the proxy first
   sets the marker to `true` on the session request. After that it emits one
   mirror request for the secondary backend at `http://127.0.0.1:3001`. The
   mirror copies the method, the marked headers and the body chunk read from the
   session. The source appends the whole `uri.to_string()` to the mirror origin.
   The model appends only the path and query, which is the same text for the
   usual origin-form target (`/users?x`). For an absolute-form target the
   source's URL does not parse and the filter panics: see "## Findings". Every response leaves with
   `user-content: response by kevin`.
2. **The in-memory user store `AppState`** that both backends run
   (`examples/server.rs` listens on 3000, `examples/server_1.rs` on 3001). It is a
   map from id to `User` plus a `next_id` counter. The axum handlers map its
   results to HTTP statuses.

Files:

- `wrappers.dfy`: `Option` and `Result`.
- `header_map.dfy`: headers as an ordered list of (lower-cased name, value)
  entries. `Insert` follows `HeaderMap::insert`: the first entry of the name
  takes the new value, later entries of that name are dropped, and an absent
  name is appended.
- `dual_write.dfy`: the loop guard, `upstream_request_filter`, `upstream_peer`,
  `upstream_response_filter`, and `Serve`, which composes them for one request.
  The detached `tokio::spawn` task is the emitted `MirrorRequest` value. The
  task's send outcome is an input that only lands in the round's log field.
- `user_store.dfy`: `AppState` operations and the store invariant `Valid`.
- `handlers.dfy`: the handlers' status and body mapping.

The `AppState` code of `examples/server.rs` and `examples/server_1.rs` is the
same line for line. The one difference is that `server_1.rs` moves hashing into
`hash_password` (`examples/server_1.rs:137-144`). One model covers both files.
The store rows below cite `examples/server.rs`, where the same code sits at
`examples/server_1.rs:64-135`. The handler and test rows cite
`examples/server_1.rs`, and the same handlers sit at `examples/server.rs:198-260`.

The loop guard in `src/lib.rs` checks only whether the marker is present.
The proxy does not compare the marker's value or strip a marker a client sent.
It does not limit the body or retry the primary. It does not drop `Host` or
`Connection` from the mirror. `DualWrite.MarkerPresenceOnly` states the
presence-only guard.

## Model

| member | source | states |
|---|---|---|
| `HeaderMap.Insert` | src/lib.rs:46 | `insert_header` leaves exactly one value under the name. Every other name keeps its values and their relative order. An absent name is appended at the end. |
| `HeaderMap.ContainsKeyIff` | src/lib.rs:50-53 | `contains_key` is true iff some entry of the list carries the name. |
| `HeaderMap.InsertLastWins` | src/lib.rs:56-58 | Inserting twice under one name equals inserting only the second value: the later insert replaces the earlier one. |
| `DualWrite.ShouldMirror` | src/lib.rs:49-54 | Mirroring happens iff no header entry carries the name `x-dual-write-executed`. |
| `DualWrite.MarkerPresenceOnly` | src/lib.rs:49-54 | A marker with any value, `false` included, stops mirroring. The value is never inspected. |
| `DualWrite.UpstreamRequestFilter` | src/lib.rs:37-113 | The primary-bound headers always carry `user-content: dual-write` and are otherwise unchanged. A mirror is emitted iff the inbound headers lack the marker. With the marker present, the session request is left as it was. When mirroring, the session's marker is exactly `true` and its other headers are unchanged. The mirror's headers equal the marked session headers. Its method is the inbound method and its URL is `http://127.0.0.1:3001` followed by the path and query. Its body is the chunk read, or empty when the read errored or found no chunk. |
| `DualWrite.UriString` | src/lib.rs:63 | `uri.to_string()` follows `http::Uri`'s Display: scheme and `://` plus authority when present, then the path ("/" if empty), then `?query`. The string always ends with the path and query, and for an origin-form target it is exactly the path and query. |
| `DualWrite.MirrorUrlAsWritten` | src/lib.rs:61-64 | The source's mirror URL starts with `http://127.0.0.1:3001`. It parses iff the target is origin-form, or its scheme begins with '/', '?' or '#', which no real scheme does. |
| `DualWrite.MirrorUrl` | src/lib.rs:61-65 | The mirror URL always parses: its authority ends right after port 3001. After the origin it holds exactly the path and query. On an origin-form target it equals the URL the source builds. |
| `DualWrite.AbsoluteFormBreaksMirrorUrl` | src/lib.rs:63-65 | For an absolute-form target, the URL the source builds from `uri.to_string()` does not parse, while the path-and-query URL does. |
| `DualWrite.AbsoluteFormCounterexample` | src/lib.rs:63-65 | For `GET http://example.com/users`, the source's mirror URL fails to parse. |
| `DualWrite.MirrorBody` | src/lib.rs:70-74 | The mirror body is the chunk read. It is empty iff the read errored, found no chunk, or found an empty one. |
| `DualWrite.MirrorDepthAtMostOne` | src/lib.rs:56-67 | A mirror fed back through the filter spawns no further mirror, whatever its target, primary headers or body. Mirroring is capped at one hop. |
| `DualWrite.PrimaryIndependentOfMirroring` | src/lib.rs:46 | The primary-bound headers depend only on the headers given to the filter. They do not depend on the session request, its marker or the body read. |
| `DualWrite.UpstreamPeer` | src/lib.rs:25-35 | The peer is always `127.0.0.1:3000` without TLS, and never the secondary's address. |
| `DualWrite.UpstreamResponseFilter` | src/lib.rs:115-124 | Every response carries exactly `user-content: response by kevin`, and its other headers are unchanged. |
| `DualWrite.Serve` | src/lib.rs:25-124 | For one request, the peer is the primary. The client gets the primary's status and body, plus the response tag. A mirror is spawned and logged iff the guard allows it. |
| `DualWrite.ClientIndependentOfMirror` | src/lib.rs:76-112 | The client's response and the primary-bound headers are the same whatever the mirror's send outcome. The filter's result never waits on the mirror. |
| `DualWrite.PrimaryMarkerOnlyFromClient` | src/lib.rs:46-58 | The primary request carries the marker iff the client sent it. The proxy marks only the session request, never the primary-bound copy. |
| `DualWrite.UnmarkedRequestMirroredOnce` | src/lib.rs:50-67 | An unmarked request yields exactly one mirror, and that mirror carries `x-dual-write-executed: true`. |
| `UserStore.Successor` | examples/server.rs:79 | `fetch_add(1)` advances the counter by one and wraps to 0 at 2^64. |
| `UserStore.New` | examples/server.rs:64-72 | A new store is valid and holds no user, and its counter is 1. |
| `UserStore.Health` | examples/server.rs:144-147 | The health check always reports healthy. |
| `UserStore.GetUser` | examples/server.rs:74-76 | Lookup finds a user iff the id is stored, returns the stored user, and in a valid store that user has the id looked up. |
| `UserStore.CreateUser` | examples/server.rs:78-102 | Create always advances the counter, even when hashing fails. It succeeds iff hashing succeeds. On success the user has the pre-call counter as its id, the given name and email, the hash as its password, and both timestamps equal to `now`. The store then gains exactly that entry. On failure the hashing error is returned and the users are unchanged. |
| `UserStore.CreateKeepsValid` | examples/server_1.rs:270-288 | Below the wrap-around, create keeps the store valid. A successful create uses a fresh id and grows the store by exactly one. |
| `UserStore.UpdateUser` | examples/server.rs:104-130 | On a missing id, update fails with `User not found`. When the id exists and the new password fails to hash, it returns the hasher's error message. Every failure, including a hashing failure, leaves the store unchanged. Update succeeds iff the id exists and any new password hashes. On success it keeps `id` and `created_at`. It overwrites only the fields given as `Some` and stamps `updated_at`. The returned user is exactly what is stored under the id. |
| `UserStore.UpdateKeepsValid` | examples/server_1.rs:371-401 | Update keeps the store valid, and leaves its size and counter unchanged. |
| `UserStore.DeleteUser` | examples/server.rs:132-134 | Delete returns true iff the id was stored. It removes exactly that key and leaves the counter alone. |
| `UserStore.DeleteRemovesOnlyThatUser` | examples/server_1.rs:418-443 | After a delete the id is absent and every other user is unchanged. The store shrinks by one iff the id was present, and it stays valid. |
| `UserStore.DeletedIdNotReused` | examples/server.rs:78-79 | A create after a delete never reuses the deleted id. |
| `UserStore.GetAllUsers` | examples/server.rs:136-142 | The listing has one element per stored user and holds exactly the stored users. In a valid store their ids are pairwise distinct. |
| `UserStore.CreateAllAssignsConsecutiveIds` | examples/server_1.rs:290-313 | The i-th of a batch of creates gets id `next_id + i`, whether or not the earlier creates succeeded. The counter ends `n` further on. |
| `UserStore.CreateAllStoresEachUser` | examples/server_1.rs:445-473 | A batch of creates keeps the store valid and grows it by the number of successes. Earlier users are kept, and each created user can be retrieved under its id. |
| `UserStore.FreshStoreIdsCountFromOne` | examples/server_1.rs:529-567 | From a new store, n creates get ids 1..n. These ids are pairwise distinct, and the store holds one user per success. |
| `Handlers.GetUserHandler` | examples/server_1.rs:200-207 | GET answers 404 with no body iff the user is missing. Otherwise it answers 200 with the stored user. |
| `Handlers.CreateUserHandler` | examples/server_1.rs:209-217 | POST answers 201 iff hashing succeeds, and the created user is then stored under the old counter. Otherwise it answers 500 with the hashing error and no user is added. The store afterwards is exactly what `create_user` leaves, and nothing else changes. |
| `Handlers.UpdateUserHandler` | examples/server_1.rs:219-229 | PUT answers 200 or 500, and a missing user gives 500 `User not found`, not 404. A failed hash gives 500 with the hasher's message. A 500 leaves the store unchanged. A 200 returns the stored user with its id unchanged. It answers 200 iff `update_user` succeeds. The store afterwards is exactly what `update_user` leaves. |
| `Handlers.DeleteUserHandler` | examples/server_1.rs:231-237 | DELETE answers 204 iff the user existed and 404 otherwise, with no body either way. Afterwards the user is absent. The store afterwards is exactly what `delete_user` leaves: only that key is removed, and the counter is kept. |
| `Handlers.GetUsersHandler` | examples/server_1.rs:194-198 | GET /users answers 200 with exactly the stored users. |
| `Handlers.HealthHandler` | examples/server_1.rs:239-257 | GET /health always answers 200 `healthy`, stamped with the given time. |
| `Handlers.DeleteTwice` | examples/server_1.rs:418-443 | Deleting a stored user answers 204, and a second delete of it answers 404. |
| `Handlers.CreateThenGet` | examples/server_1.rs:315-333 | After a successful create, GET of the new id returns the created user with 200. |

## Left out

- Argon2 hashing with `OsRng` salts: modelled as a `Hasher` parameter that may fail. Nothing is claimed about the `$argon2` prefix or about salts making hashes differ. Those are properties of the foreign library.
- `Utc::now()`: the time is the `now` parameter. The tests' `updated_at > old` depends on the wall clock, so the model only proves `updated_at == now`.
- `DashMap`, `AtomicU64` and the threaded creation test: the store is sequential. Each `fetch_add` is one step of `CreateUser`.
- `tokio::spawn`, the `reqwest` client and the response logging in the detached task (src/lib.rs:76-109): the mirror is an emitted value. Its send outcome is an input that is only recorded.
- pingora `Session` internals: `read_request_body()` is the `BodyRead` input, which is the result of a single call, so one chunk at most. The primary-bound headers passed to the filter are, in `Serve`, the clone of the inbound headers that pingora hands to `upstream_request_filter`.
- The `?` after each `insert_header`: the static names and values are valid header text, so the insert cannot fail, and the model has no error path there.
- `Url::parse`: it is modelled only by whether the authority ends after port 3001 (`ParsesAsMirrorUrl`). The rest of URL syntax is not modelled.
- Asterisk-form targets (`OPTIONS *`): not modelled.
- Authority-form targets (`CONNECT host:port`): not modelled. `uri.to_string()` would print only `host:port`, so the source's mirror URL would fail to parse in the same way as for an absolute-form target.
- Header name case folding: names are assumed already lower-cased, as `HeaderName` stores them.
- axum routing and path extraction: a non-numeric id is rejected before the handler runs. The timeout layer (408), `HandleErrorLayer`, tracing and the listeners are left out too.
- serde JSON encoding of `User`, including the skipped `password` field: left out.
- `src/main.rs`: left out. It only wires the server, and its `executed_requests` set is never read or written.
- CreateKeepsValid: proved only while `next_id + 1 < 2^64`. After 2^64 - 1 creates the counter wraps to 0 and a later create could overwrite a user. The same bound applies to `CreateAllAssignsConsecutiveIds`, `CreateAllStoresEachUser` and `FreshStoreIdsCountFromOne`.
- DualWrite.UpstreamRequestFilter: builds the mirror URL with the corrected `MirrorUrl`, so on an unmarked absolute-form target it emits a mirror where the source panics at `Url::parse(...).expect`. The as-written URL and its failure are `DualWrite.MirrorUrlAsWritten` and `DualWrite.AbsoluteFormBreaksMirrorUrl`.
- DualWrite.Serve: inherits the corrected URL from `UpstreamRequestFilter`. On an unmarked absolute-form target it answers the client with the primary's response, while the source panics before the client is answered.
- CreateAllAssignsConsecutiveIds: a batch uses one clock reading and one hasher for all its creates.

## Findings

| source | as written | input that shows it | evidently intended | confidence | as-written member | corrected member |
|---|---|---|---|---|---|---|
| src/lib.rs:63-65 | The mirror URL is `http://127.0.0.1:3001` followed by the whole `uri.to_string()`, and `Url::parse(...).expect(...)` panics when that does not parse. | The absolute-form request line `GET http://example.com/users HTTP/1.1` gives `http://127.0.0.1:3001http://example.com/users`. Its port `3001http:` is not a number, so the filter panics (`DualWrite.AbsoluteFormCounterexample`). | Append only the path and query, as the variable name `path_and_query` says. | medium; not executed | `DualWrite.MirrorUrlAsWritten` | `DualWrite.MirrorUrl` |

=== FILE: dual_write.dfy ===
/** The dual-write filter of `DualWriteProxy` (a pingora `ProxyHttp`).

    For every request the proxy picks the fixed primary peer, tags the
    primary-bound request, and — unless the inbound request already carries the
    loop marker — marks the inbound request and emits one mirror request for the
    secondary backend.  The detached task that sends the mirror is modelled as
    the emitted `MirrorRequest` value plus the outcome it logs; nothing of that
    outcome flows back to the client. */
module DualWrite {
  import opened Wrappers
  import opened HeaderMap

  newtype byte = b: int | 0 <= b < 256

  /** The loop marker: its presence means "already mirrored". */
  const MarkerName: string := "x-dual-write-executed"
  const MarkerValue: string := "true"

  /** The fixed tag stamped on primary-bound requests and on responses. */
  const TagName: string := "user-content"
  const UpstreamTagValue: string := "dual-write"
  const ResponseTagValue: string := "response by kevin"

  /** Scheme and authority of the secondary backend. */
  const SecondaryAddress: string := "127.0.0.1:3001"
  const MirrorOrigin: string := "http://" + SecondaryAddress

  datatype Peer = Peer(address: string, tls: bool, sni: string)

  /** The primary backend: plain HTTP to port 3000, SNI "localhost". */
  const PrimaryPeer: Peer := Peer("127.0.0.1:3000", false, "localhost")

  /** A request target in the two forms modelled here: origin form (`/p?q`)
      and absolute form (`http://host/p?q`).  `http::Uri` also holds the
      authority and asterisk forms, which this model leaves out. */
  datatype RequestTarget =
    | OriginForm(path: string, query: Option<string>)
    | AbsoluteForm(scheme: string, authority: string, path: string, query: Option<string>)

  /** An origin-form path starts with '/'; an absolute-form path is empty or does. */
  predicate PathWellFormed(t: RequestTarget) {
    match t
    case OriginForm(p, _) => |p| > 0 && p[0] == '/'
    case AbsoluteForm(_, _, p, _) => p == [] || p[0] == '/'
  }

  type Target = t: RequestTarget | PathWellFormed(t) witness OriginForm("/", None)

  /** `Uri::path`: the path, "/" when an absolute-form target has none. */
  function PathOf(t: Target): string {
    if t.path == [] then "/" else t.path
  }

  function QuerySuffix(q: Option<string>): string {
    match q
    case None => ""
    case Some(s) => "?" + s
  }

  /** The path-and-query part of the target, without scheme or authority. */
  function PathAndQuery(t: Target): (s: string)
    ensures |s| > 0 && s[0] == '/'
  {
    PathOf(t) + QuerySuffix(t.query)
  }

  /** `Uri::to_string()`, following `http::Uri`'s `Display`: scheme and
      authority when present, then the path ("/" when empty), then "?query". */
  function UriString(t: Target): (s: string)
    ensures |s| >= |PathAndQuery(t)| && s[|s| - |PathAndQuery(t)|..] == PathAndQuery(t)
    ensures t.OriginForm? ==> s == PathAndQuery(t)
    ensures t.AbsoluteForm? ==> |s| >= |t.scheme| + 3 && s[..|t.scheme| + 3] == t.scheme + "://"
  {
    match t
    case OriginForm(_, q) => PathOf(t) + QuerySuffix(q)
    case AbsoluteForm(scheme, authority, _, q) =>
      var s := scheme + "://" + authority + PathOf(t) + QuerySuffix(q);
      assert s == (scheme + "://") + authority + PathAndQuery(t);
      s
  }

  /** The part of `Url::parse` that decides the fate of a URL built on
      `MirrorOrigin`: the authority ends right after the port digits, that is
      the next character (if any) is one of '/', '?' or '#'.  Anything else
      makes the port "3001…" non-numeric, and parsing fails. */
  predicate ParsesAsMirrorUrl(url: string) {
    |url| >= |MirrorOrigin| && url[..|MirrorOrigin|] == MirrorOrigin &&
    (|url| == |MirrorOrigin| || url[|MirrorOrigin|] == '/' || url[|MirrorOrigin|] == '?' || url[|MirrorOrigin|] == '#')
  }

  /** The mirror URL as the source builds it: origin followed by `uri.to_string()`.
      It parses exactly for origin-form targets and for the (nonsensical)
      absolute-form targets whose scheme begins with a delimiter. */
  function MirrorUrlAsWritten(t: Target): (url: string)
    ensures |url| > |MirrorOrigin| && url[..|MirrorOrigin|] == MirrorOrigin
    ensures ParsesAsMirrorUrl(url) <==>
              (t.OriginForm? || (|t.scheme| > 0 && (t.scheme[0] == '/' || t.scheme[0] == '?' || t.scheme[0] == '#')))
  {
    var url := MirrorOrigin + UriString(t);
    assert url[..|MirrorOrigin|] == MirrorOrigin;
    assert url[|MirrorOrigin|..] == UriString(t);
    url
  }

  /** The mirror URL built from the path and query only, as the variable name
      `path_and_query` in the source intends. */
  function MirrorUrl(t: Target): (url: string)
    ensures ParsesAsMirrorUrl(url)
    ensures url[|MirrorOrigin|..] == PathAndQuery(t)
    ensures t.OriginForm? ==> url == MirrorUrlAsWritten(t)
  {
    var url := MirrorOrigin + PathAndQuery(t);
    assert url[..|MirrorOrigin|] == MirrorOrigin;
    assert url[|MirrorOrigin|..] == PathAndQuery(t);
    url
  }

  /** For an absolute-form target the URL built as written does not parse, so
      the `expect` after `Url::parse` panics inside the filter. */
  lemma AbsoluteFormBreaksMirrorUrl(t: Target)
    requires t.AbsoluteForm? && |t.scheme| > 0
    requires t.scheme[0] != '/' && t.scheme[0] != '?' && t.scheme[0] != '#'
    ensures !ParsesAsMirrorUrl(MirrorUrlAsWritten(t))
    ensures ParsesAsMirrorUrl(MirrorUrl(t))
  {
    var url := MirrorUrlAsWritten(t);
    assert url == MirrorOrigin + (t.scheme + "://" + t.authority + PathOf(t) + QuerySuffix(t.query));
    assert url[|MirrorOrigin|] == t.scheme[0];
  }

  /** The concrete request line `GET http://example.com/users HTTP/1.1`. */
  lemma AbsoluteFormCounterexample()
    ensures !ParsesAsMirrorUrl(MirrorUrlAsWritten(AbsoluteForm("http", "example.com", "/users", None)))
  {
    AbsoluteFormBreaksMirrorUrl(AbsoluteForm("http", "example.com", "/users", None));
  }

  /** The inbound (session) request header. */
  datatype Request = Request(verb: string, target: Target, headers: Headers)

  /** What `read_request_body()` yielded: a chunk, end of body, or an error. */
  datatype BodyRead = Chunk(bytes: seq<byte>) | EndOfBody | ReadError

  /** The duplicate handed to the detached task for the secondary backend. */
  datatype MirrorRequest = MirrorRequest(url: string, verb: string, headers: Headers, body: seq<byte>)

  /** The filter's effects: the session request afterwards, the primary-bound
      headers afterwards, and the mirror it spawned, if any. */
  datatype FilterOutcome = FilterOutcome(session: Request, upstream: Headers, mirror: Option<MirrorRequest>)

  /** The loop guard: mirror exactly when no marker entry is present; the
      marker's value is never looked at. */
  function ShouldMirror(h: Headers): (b: bool)
    ensures b <==> forall i :: 0 <= i < |h| ==> h[i].name != MarkerName
  {
    ContainsKeyIff(h, MarkerName);
    !ContainsKey(h, MarkerName)
  }

  /** Any marker value, "false" included, stops mirroring. */
  lemma MarkerPresenceOnly(h: Headers, v: string)
    ensures !ShouldMirror(Insert(h, MarkerName, v))
  {
  }

  /** `.unwrap_or_default().unwrap_or_default()`: the chunk read, else no bytes. */
  function MirrorBody(b: BodyRead): (r: seq<byte>)
    ensures b.Chunk? ==> r == b.bytes
    ensures r == [] <==> (!b.Chunk? || b.bytes == [])
  {
    if b.Chunk? then b.bytes else []
  }

  /** `upstream_request_filter`. */
  function UpstreamRequestFilter(req: Request, upstream: Headers, body: BodyRead): (r: FilterOutcome)
    ensures ValuesOf(r.upstream, TagName) == [UpstreamTagValue]
    ensures RemoveAll(r.upstream, TagName) == RemoveAll(upstream, TagName)
    ensures r.mirror.Some? <==> forall i :: 0 <= i < |req.headers| ==> req.headers[i].name != MarkerName
    ensures r.mirror.None? ==> r.session == req
    ensures r.session.verb == req.verb && r.session.target == req.target
    ensures r.mirror.Some? ==>
              && ValuesOf(r.session.headers, MarkerName) == [MarkerValue]
              && RemoveAll(r.session.headers, MarkerName) == RemoveAll(req.headers, MarkerName)
    ensures r.mirror.Some? ==>
              && r.mirror.value.headers == r.session.headers
              && r.mirror.value.verb == req.verb
              && r.mirror.value.url == MirrorOrigin + PathAndQuery(req.target)
    ensures r.mirror.Some? && body.Chunk? ==> r.mirror.value.body == body.bytes
    ensures r.mirror.Some? && !body.Chunk? ==> r.mirror.value.body == []
  {
    var tagged := Insert(upstream, TagName, UpstreamTagValue);
    if !ShouldMirror(req.headers) then
      FilterOutcome(req, tagged, None)
    else
      var marked := req.(headers := Insert(req.headers, MarkerName, MarkerValue));
      var mirror := MirrorRequest(MirrorUrl(req.target), req.verb, marked.headers, MirrorBody(body));
      FilterOutcome(marked, tagged, Some(mirror))
  }

  /** How the mirror would look if it came back through a proxy as an inbound
      request, with whatever target. */
  function AsInbound(m: MirrorRequest, t: Target): Request {
    Request(m.verb, t, m.headers)
  }

  /** Mirroring depth is at most one hop: a mirror fed back through the filter
      spawns nothing, whatever the target, primary headers or body. */
  lemma MirrorDepthAtMostOne(req: Request, upstream: Headers, body: BodyRead,
                             t: Target, upstream': Headers, body': BodyRead)
    ensures var first := UpstreamRequestFilter(req, upstream, body);
            first.mirror.Some? ==>
              UpstreamRequestFilter(AsInbound(first.mirror.value, t), upstream', body').mirror.None?
  {
    var first := UpstreamRequestFilter(req, upstream, body);
    if first.mirror.Some? {
      var h := first.mirror.value.headers;
      assert ContainsKey(h, MarkerName);
      ContainsKeyIff(h, MarkerName);
    }
  }

  /** The primary-bound headers depend only on the headers handed to the filter:
      neither the session request, its marker, nor the body read changes them. */
  lemma PrimaryIndependentOfMirroring(req1: Request, req2: Request, upstream: Headers,
                                      body1: BodyRead, body2: BodyRead)
    ensures UpstreamRequestFilter(req1, upstream, body1).upstream
         == UpstreamRequestFilter(req2, upstream, body2).upstream
  {
  }

  /** `upstream_peer`: always the primary backend. */
  function UpstreamPeer(req: Request): (p: Peer)
    ensures p.address == "127.0.0.1:3000" && !p.tls
    ensures p.address != SecondaryAddress
  {
    PrimaryPeer
  }

  /** `upstream_response_filter`: every response leaves tagged. */
  function UpstreamResponseFilter(response: Headers): (r: Headers)
    ensures ValuesOf(r, TagName) == [ResponseTagValue]
    ensures RemoveAll(r, TagName) == RemoveAll(response, TagName)
  {
    Insert(response, TagName, ResponseTagValue)
  }

  datatype Response = Response(status: int, headers: Headers, body: seq<byte>)

  /** What the detached task's send yielded; it is only logged. */
  datatype SendOutcome = Delivered(status: int, text: string) | SendFailed(reason: string)

  /** One request through the proxy: the peer chosen, the primary-bound
      headers, what the client receives, the mirror spawned and what the
      detached task logs about it. */
  datatype Round = Round(peer: Peer, upstream: Headers, client: Response,
                         mirror: Option<MirrorRequest>, mirrorLog: Option<SendOutcome>)

  /** pingora's sequence for one request: `upstream_peer`, then
      `upstream_request_filter` on a clone of the inbound headers, then
      `upstream_response_filter` on the primary's response. */
  function Serve(req: Request, body: BodyRead, primary: Response, sent: SendOutcome): (r: Round)
    ensures r.peer == PrimaryPeer
    ensures r.client.status == primary.status && r.client.body == primary.body
    ensures ValuesOf(r.client.headers, TagName) == [ResponseTagValue]
    ensures RemoveAll(r.client.headers, TagName) == RemoveAll(primary.headers, TagName)
    ensures r.mirror.Some? <==> ShouldMirror(req.headers)
    ensures r.mirrorLog.Some? <==> r.mirror.Some?
  {
    var filtered := UpstreamRequestFilter(req, req.headers, body);
    var client := primary.(headers := UpstreamResponseFilter(primary.headers));
    Round(UpstreamPeer(req), filtered.upstream, client, filtered.mirror,
          if filtered.mirror.Some? then Some(sent) else None)
  }

  /** The client's response is the primary's, whatever became of the mirror
      and whether or not one was spawned. */
  lemma ClientIndependentOfMirror(req: Request, body: BodyRead, primary: Response,
                                  sent1: SendOutcome, sent2: SendOutcome)
    ensures Serve(req, body, primary, sent1).client == Serve(req, body, primary, sent2).client
    ensures Serve(req, body, primary, sent1).upstream == Serve(req, body, primary, sent2).upstream
  {
  }

  /** The marker the proxy adds never reaches the primary: the primary sees it
      only if the client sent it. */
  lemma {:induction false} PrimaryMarkerOnlyFromClient(req: Request, body: BodyRead, primary: Response, sent: SendOutcome)
    ensures ContainsKey(Serve(req, body, primary, sent).upstream, MarkerName) <==> ContainsKey(req.headers, MarkerName)
  {
    var up := Serve(req, body, primary, sent).upstream;
    assert ValuesOf(up, MarkerName) == ValuesOf(req.headers, MarkerName);
  }

  /** Exactly one mirror for an unmarked request, carrying the marker. */
  lemma UnmarkedRequestMirroredOnce(req: Request, body: BodyRead, primary: Response, sent: SendOutcome)
    requires !ContainsKey(req.headers, MarkerName)
    ensures var r := Serve(req, body, primary, sent);
            r.mirror.Some? && ValuesOf(r.mirror.value.headers, MarkerName) == [MarkerValue]
  {
    ContainsKeyIff(req.headers, MarkerName);
  }
}

=== FILE: handlers.dfy ===
/** The axum handlers of the backends: each calls one store operation and
    maps its result to an HTTP status and a JSON body. */
module Handlers {
  import opened Wrappers
  import opened UserStore

  const StatusOk: int := 200
  const StatusCreated: int := 201
  const StatusNoContent: int := 204
  const StatusNotFound: int := 404
  const StatusInternalServerError: int := 500
  const StatusServiceUnavailable: int := 503

  /** The response body: one user, a list of users, an error text, the health
      document, or nothing. */
  datatype Body =
    | NoBody
    | UserJson(user: User)
    | UsersJson(users: seq<User>)
    | ErrorText(text: string)
    | HealthJson(status: string, timestamp: Timestamp)

  datatype Reply = Reply(status: int, body: Body)

  /** `GET /users/{id}`: the user with 200, or an empty 404. */
  function GetUserHandler(s: Store, id: u64): (r: Reply)
    ensures r.status == StatusNotFound <==> id !in s.users
    ensures r.status == StatusOk <==> id in s.users
    ensures r.status == StatusOk ==> r.body == UserJson(s.users[id])
    ensures r.status == StatusNotFound ==> r.body == NoBody
  {
    match GetUser(s, id)
    case None => Reply(StatusNotFound, NoBody)
    case Some(u) => Reply(StatusOk, UserJson(u))
  }

  /** `POST /users`: 201 with the new user, or 500 with the hashing error. */
  function CreateUserHandler(s: Store, input: NewUser, now: Timestamp, hash: Hasher): (r: Step<Reply>)
    ensures r.out.status == StatusCreated <==> hash(input.password).Success?
    ensures r.out.status == StatusInternalServerError <==> hash(input.password).Failure?
    ensures r.out.status == StatusCreated ==>
              && r.out.body.UserJson?
              && r.out.body.user.id == s.nextId
              && GetUser(r.store, s.nextId) == Some(r.out.body.user)
    ensures r.out.status == StatusInternalServerError ==>
              r.out.body == ErrorText(hash(input.password).error) && r.store.users == s.users
    ensures r.store.nextId == Successor(s.nextId)
    ensures r.store == CreateUser(s, input, now, hash).store
  {
    var step := CreateUser(s, input, now, hash);
    match step.out
    case Success(u) => Step(step.store, Reply(StatusCreated, UserJson(u)))
    case Failure(e) => Step(step.store, Reply(StatusInternalServerError, ErrorText(e)))
  }

  /** `PUT /users/{id}`: 200 with the updated user; every error, a missing
      user included, is a 500 carrying the error text. */
  function UpdateUserHandler(s: Store, id: u64, update: UserUpdate, now: Timestamp, hash: Hasher): (r: Step<Reply>)
    ensures r.out.status == StatusOk || r.out.status == StatusInternalServerError
    ensures id !in s.users ==> r.out == Reply(StatusInternalServerError, ErrorText(UserNotFound))
    ensures id in s.users && update.password.Some? && hash(update.password.value).Failure? ==>
              r.out == Reply(StatusInternalServerError, ErrorText(hash(update.password.value).error))
    ensures r.out.status == StatusInternalServerError ==> r.store == s
    ensures r.out.status == StatusOk <==> UpdateUser(s, id, update, now, hash).out.Success?
    ensures r.store == UpdateUser(s, id, update, now, hash).store
    ensures r.out.status == StatusOk ==>
              && r.out.body.UserJson?
              && r.out.body.user.id == s.users[id].id
              && GetUser(r.store, id) == Some(r.out.body.user)
  {
    var step := UpdateUser(s, id, update, now, hash);
    match step.out
    case Success(u) => Step(step.store, Reply(StatusOk, UserJson(u)))
    case Failure(e) => Step(step.store, Reply(StatusInternalServerError, ErrorText(e)))
  }

  /** `DELETE /users/{id}`: 204 when the user existed, else 404; no body. */
  function DeleteUserHandler(s: Store, id: u64): (r: Step<Reply>)
    ensures r.out.status == StatusNoContent <==> id in s.users
    ensures r.out.status == StatusNotFound <==> id !in s.users
    ensures r.out.body == NoBody
    ensures GetUser(r.store, id).None?
    ensures r.store == DeleteUser(s, id).store
  {
    var step := DeleteUser(s, id);
    Step(step.store, Reply(if step.out then StatusNoContent else StatusNotFound, NoBody))
  }

  /** `GET /users`: 200 with every stored user. */
  method GetUsersHandler(s: Store) returns (r: Reply)
    ensures r.status == StatusOk && r.body.UsersJson?
    ensures |r.body.users| == |s.users|
    ensures forall u :: u in r.body.users <==> u in s.users.Values
  {
    var all := GetAllUsers(s);
    r := Reply(StatusOk, UsersJson(all));
  }

  /** `GET /health`: the store is always healthy, so always 200 "healthy". */
  function HealthHandler(s: Store, now: Timestamp): (r: Reply)
    ensures r.status == StatusOk
    ensures r.body.HealthJson? && r.body.status == "healthy" && r.body.timestamp == now
  {
    if Health(s) then Reply(StatusOk, HealthJson("healthy", now))
    else Reply(StatusServiceUnavailable, HealthJson("unhealthy", now))
  }

  /** Deleting twice: the first delete of a stored user answers 204, the
      second 404 — the 404 reports the store, not the request. */
  lemma DeleteTwice(s: Store, id: u64)
    requires id in s.users
    ensures var first := DeleteUserHandler(s, id);
            first.out.status == StatusNoContent
            && DeleteUserHandler(first.store, id).out.status == StatusNotFound
  {
  }

  /** Create then get: the freshly created user is served back with 200. */
  lemma CreateThenGet(s: Store, input: NewUser, now: Timestamp, hash: Hasher)
    requires hash(input.password).Success?
    ensures var created := CreateUserHandler(s, input, now, hash);
            created.out.status == StatusCreated
            && GetUserHandler(created.store, s.nextId) == Reply(StatusOk, created.out.body)
  {
  }
}

=== FILE: header_map.dfy ===
/** An HTTP header map as an ordered list of (name, value) entries.

    Names are stored lower-cased, as `http::HeaderName` stores them, so two
    names denote the same header exactly when they are equal strings.  A name
    may occur several times (a multimap); `Insert` follows the semantics of
    `HeaderMap::insert`: the first entry of that name takes the new value, every
    later entry of that name is dropped, and an absent name is appended. */
module HeaderMap {

  datatype Header = Header(name: string, value: string)

  type Headers = seq<Header>

  /** Every value stored under `name`, in order (`HeaderMap::get_all`). */
  function ValuesOf(h: Headers, name: string): seq<string>
    decreases |h|
  {
    if h == [] then []
    else (if h[0].name == name then [h[0].value] else []) + ValuesOf(h[1..], name)
  }

  /** `HeaderMap::contains_key`: some entry carries `name`. */
  predicate ContainsKey(h: Headers, name: string) {
    ValuesOf(h, name) != []
  }

  /** The header list with every entry named `name` dropped, the others kept in order. */
  function RemoveAll(h: Headers, name: string): (r: Headers)
    ensures ValuesOf(r, name) == []
    ensures forall n :: n != name ==> ValuesOf(r, n) == ValuesOf(h, n)
    ensures |r| <= |h|
    decreases |h|
  {
    if h == [] then []
    else if h[0].name == name then RemoveAll(h[1..], name)
    else [h[0]] + RemoveAll(h[1..], name)
  }

  /** `insert_header(name, value)`: afterwards `name` has exactly the one value
      `value`, and the entries of every other name are untouched and keep
      their relative order. */
  function Insert(h: Headers, name: string, value: string): (r: Headers)
    ensures ValuesOf(r, name) == [value]
    ensures forall n :: n != name ==> ValuesOf(r, n) == ValuesOf(h, n)
    ensures RemoveAll(r, name) == RemoveAll(h, name)
    ensures !ContainsKey(h, name) ==> r == h + [Header(name, value)]
    decreases |h|
  {
    if h == [] then [Header(name, value)]
    else if h[0].name == name then
      RemoveAbsent(RemoveAll(h[1..], name), name);
      [Header(name, value)] + RemoveAll(h[1..], name)
    else [h[0]] + Insert(h[1..], name, value)
  }

  /** `ContainsKey` agrees with the positional reading: some index holds the name. */
  lemma {:induction false} ContainsKeyIff(h: Headers, name: string)
    ensures ContainsKey(h, name) <==> exists i :: 0 <= i < |h| && h[i].name == name
    decreases |h|
  {
    if h != [] {
      ContainsKeyIff(h[1..], name);
      if h[0].name != name {
        assert ContainsKey(h, name) <==> ContainsKey(h[1..], name);
        if exists i :: 0 <= i < |h| && h[i].name == name {
          var i :| 0 <= i < |h| && h[i].name == name;
          assert h[1..][i - 1].name == name;
        }
        if exists i :: 0 <= i < |h[1..]| && h[1..][i].name == name {
          var i :| 0 <= i < |h[1..]| && h[1..][i].name == name;
          assert h[i + 1].name == name;
        }
      }
    }
  }

  /** Removing a name that does not occur changes nothing. */
  lemma {:induction false} RemoveAbsent(h: Headers, name: string)
    requires !ContainsKey(h, name)
    ensures RemoveAll(h, name) == h
    decreases |h|
  {
    if h != [] {
      RemoveAbsent(h[1..], name);
    }
  }

  /** Inserting twice under one name keeps only the second value, in the place
      the first insert chose: the later `insert_header` wins. */
  lemma {:induction false} InsertLastWins(h: Headers, name: string, v: string, w: string)
    ensures Insert(Insert(h, name, v), name, w) == Insert(h, name, w)
    decreases |h|
  {
    if h == [] {
    } else if h[0].name == name {
      RemoveAbsent(RemoveAll(h[1..], name), name);
    } else {
      InsertLastWins(h[1..], name, v, w);
    }
  }
}

=== FILE: user_store.dfy ===
/** The in-memory user store (`AppState`) that both backends run.

    State is a map from id to `User` plus the `next_id` counter.  The counter is
    an `AtomicU64` advanced with `fetch_add`, which wraps modulo 2^64; the model
    runs every operation sequentially.  Argon2 hashing with a random salt is an
    opaque, possibly failing `Hasher`, and the wall clock is the `now` argument. */
module UserStore {
  import opened Wrappers

  const U64Limit: int := 0x1_0000_0000_0000_0000

  type u64 = x: int | 0 <= x < U64Limit

  type Timestamp = int

  datatype User = User(id: u64, name: string, email: string, password: string,
                       createdAt: Timestamp, updatedAt: Timestamp)

  /** The `CreateUser` payload. */
  datatype NewUser = NewUser(name: string, email: string, password: string)

  /** The `UpdateUser` payload: only the fields given as `Some` change. */
  datatype UserUpdate = UserUpdate(name: Option<string>, email: Option<string>, password: Option<string>)

  datatype Store = Store(nextId: u64, users: map<u64, User>)

  /** The store after an operation, and what the operation returned. */
  datatype Step<T> = Step(store: Store, out: T)

  /** Hashing a password: the stored hash, or the error text. */
  type Hasher = string -> Result<string, string>

  const UserNotFound: string := "User not found"

  /** The counter has left 0 behind, every stored user sits under its own id,
      and that id was handed out already: it is at least 1 and below the counter. */
  predicate Valid(s: Store) {
    && 1 <= s.nextId
    && forall k :: k in s.users ==> s.users[k].id == k && 1 <= k < s.nextId
  }

  /** `fetch_add(1)`: the successor of `x`, wrapping at 2^64. */
  function Successor(x: u64): (y: u64)
    ensures x + 1 < U64Limit ==> y == x + 1
    ensures x + 1 == U64Limit ==> y == 0
  {
    (x + 1) % U64Limit
  }

  /** `AppState::new`: no users, first id 1. */
  function New(): (s: Store)
    ensures Valid(s)
    ensures forall id :: GetUser(s, id).None?
    ensures s.nextId == 1
  {
    Store(1, map[])
  }

  /** `AppState::health`: the store always reports healthy. */
  function Health(s: Store): (healthy: bool)
    ensures healthy
  {
    true
  }

  /** `AppState::get_user`. */
  function GetUser(s: Store, id: u64): (r: Option<User>)
    ensures r.Some? <==> id in s.users
    ensures r.Some? ==> r.value == s.users[id] && (Valid(s) ==> r.value.id == id)
  {
    if id in s.users then Some(s.users[id]) else None
  }

  /** `AppState::create_user`.  The id is taken from the counter before the
      password is hashed, so a failed hash still uses up an id. */
  function CreateUser(s: Store, input: NewUser, now: Timestamp, hash: Hasher): (r: Step<Result<User, string>>)
    ensures r.store.nextId == Successor(s.nextId)
    ensures r.out.Success? <==> hash(input.password).Success?
    ensures r.out.Failure? ==> r.out.error == hash(input.password).error && r.store.users == s.users
    ensures r.out.Success? ==>
              var u := r.out.value;
              && u.id == s.nextId
              && u.name == input.name && u.email == input.email
              && u.password == hash(input.password).value
              && u.createdAt == now && u.updatedAt == now
              && r.store.users == s.users[u.id := u]
  {
    var id := s.nextId;
    var bumped := s.(nextId := Successor(id));
    match hash(input.password)
    case Failure(e) => Step(bumped, Failure(e))
    case Success(digest) =>
      var u := User(id, input.name, input.email, digest, now, now);
      Step(bumped.(users := bumped.users[id := u]), Success(u))
  }

  /** Below the wrap-around, create keeps the store valid; a successful create
      adds a user under a fresh id, so the store grows by exactly one. */
  lemma CreateKeepsValid(s: Store, input: NewUser, now: Timestamp, hash: Hasher)
    requires Valid(s) && s.nextId + 1 < U64Limit
    ensures var r := CreateUser(s, input, now, hash);
            && Valid(r.store)
            && (r.out.Success? ==> s.nextId !in s.users && |r.store.users| == |s.users| + 1)
            && (r.out.Failure? ==> |r.store.users| == |s.users|)
  {
    var r := CreateUser(s, input, now, hash);
    if r.out.Success? {
      var u := r.out.value;
      assert s.nextId !in s.users;
      forall k | k in r.store.users
        ensures r.store.users[k].id == k && 1 <= k < r.store.nextId
      {
        if k != u.id {
          assert k in s.users;
        }
      }
    }
  }

  /** `AppState::update_user`.  A missing id fails with "User not found"; a
      failing hash fails too, before anything is written back. */
  function UpdateUser(s: Store, id: u64, update: UserUpdate, now: Timestamp, hash: Hasher): (r: Step<Result<User, string>>)
    ensures id !in s.users ==> r.out == Failure(UserNotFound)
    ensures r.out.Failure? ==> r.store == s
    ensures id in s.users && update.password.Some? && hash(update.password.value).Failure? ==>
              r.out == Failure(hash(update.password.value).error)
    ensures id in s.users ==>
              (r.out.Success? <==> (update.password.None? || hash(update.password.value).Success?))
    ensures r.out.Success? ==>
              id in s.users &&
              var old_, u := s.users[id], r.out.value;
              && u.id == old_.id && u.createdAt == old_.createdAt
              && u.name == (if update.name.Some? then update.name.value else old_.name)
              && u.email == (if update.email.Some? then update.email.value else old_.email)
              && u.password == (if update.password.Some? then hash(update.password.value).value else old_.password)
              && u.updatedAt == now
              && r.store == s.(users := s.users[id := u])
  {
    if id !in s.users then Step(s, Failure(UserNotFound))
    else
      var current := s.users[id];
      var renamed := current.(name := update.name.GetOr(current.name),
                              email := update.email.GetOr(current.email));
      match update.password
      case None => WriteBack(s, id, renamed, now)
      case Some(p) =>
        match hash(p)
        case Failure(e) => Step(s, Failure(e))
        case Success(digest) => WriteBack(s, id, renamed.(password := digest), now)
  }

  /** The tail of `update_user`: stamp the time and store the user under `id`. */
  function WriteBack(s: Store, id: u64, u: User, now: Timestamp): Step<Result<User, string>> {
    var stamped := u.(updatedAt := now);
    Step(s.(users := s.users[id := stamped]), Success(stamped))
  }

  /** Update keeps the store valid and never changes its size or counter. */
  lemma UpdateKeepsValid(s: Store, id: u64, update: UserUpdate, now: Timestamp, hash: Hasher)
    requires Valid(s)
    ensures var r := UpdateUser(s, id, update, now, hash);
            Valid(r.store) && |r.store.users| == |s.users| && r.store.nextId == s.nextId
  {
  }

  /** `AppState::delete_user`: true exactly when the id was stored. */
  function DeleteUser(s: Store, id: u64): (r: Step<bool>)
    ensures r.out <==> id in s.users
    ensures r.store.users == s.users - {id}
    ensures r.store.nextId == s.nextId
  {
    Step(s.(users := s.users - {id}), id in s.users)
  }

  /** After a delete the id is gone, the other users are untouched, and the
      store shrinks by one exactly when the id was there. */
  lemma DeleteRemovesOnlyThatUser(s: Store, id: u64)
    ensures var r := DeleteUser(s, id);
            && GetUser(r.store, id).None?
            && (forall k :: k != id ==> GetUser(r.store, k) == GetUser(s, k))
            && |r.store.users| == (if r.out then |s.users| - 1 else |s.users|)
            && (Valid(s) ==> Valid(r.store))
  {
    var r := DeleteUser(s, id);
    if id in s.users {
      assert s.users.Keys == r.store.users.Keys + {id};
    } else {
      assert r.store.users == s.users;
    }
  }

  /** The next create never hands out a just-deleted id. */
  lemma DeletedIdNotReused(s: Store, id: u64, input: NewUser, now: Timestamp, hash: Hasher)
    requires Valid(s) && id in s.users
    ensures var r := CreateUser(DeleteUser(s, id).store, input, now, hash);
            r.out.Success? ==> r.out.value.id != id
  {
  }

  /** `AppState::get_all_users`: every stored user once, in some order (the
      iteration order of the concurrent map is unspecified). */
  method GetAllUsers(s: Store) returns (all: seq<User>)
    ensures |all| == |s.users|
    ensures forall u :: u in all <==> u in s.users.Values
    ensures Valid(s) ==> forall i, j :: 0 <= i < j < |all| ==> all[i].id != all[j].id
  {
    all := [];
    var remaining := s.users.Keys;
    ghost var taken: seq<u64> := [];
    while remaining != {}
      invariant remaining <= s.users.Keys
      invariant |taken| == |all|
      invariant forall i :: 0 <= i < |taken| ==> taken[i] in s.users && all[i] == s.users[taken[i]]
      invariant forall i :: 0 <= i < |taken| ==> taken[i] !in remaining
      invariant forall i, j :: 0 <= i < j < |taken| ==> taken[i] != taken[j]
      invariant forall k :: k in s.users ==> k in remaining || k in taken
      invariant |all| + |remaining| == |s.users|
      decreases |remaining|
    {
      var k :| k in remaining;
      all := all + [s.users[k]];
      taken := taken + [k];
      remaining := remaining - {k};
    }
    forall u | u in s.users.Values
      ensures u in all
    {
      var k :| k in s.users && s.users[k] == u;
      var i :| 0 <= i < |taken| && taken[i] == k;
      assert all[i] == u;
    }
  }

  /** Replays a batch of creates, one after the other, with one clock reading
      and one hasher. */
  function CreateAll(s: Store, inputs: seq<NewUser>, now: Timestamp, hash: Hasher): (r: Step<seq<Result<User, string>>>)
    ensures |r.out| == |inputs|
    decreases |inputs|
  {
    if inputs == [] then Step(s, [])
    else
      var first := CreateUser(s, inputs[0], now, hash);
      var rest := CreateAll(first.store, inputs[1..], now, hash);
      Step(rest.store, [first.out] + rest.out)
  }

  /** The number of successful results. */
  function Successes(rs: seq<Result<User, string>>): nat {
    if rs == [] then 0 else (if rs[0].Success? then 1 else 0) + Successes(rs[1..])
  }

  /** Below the wrap-around, the i-th create of a batch is given id
      `nextId + i` whether or not its hash succeeds, and the counter ends
      `|inputs|` further on. */
  lemma {:induction false} CreateAllAssignsConsecutiveIds(s: Store, inputs: seq<NewUser>, now: Timestamp, hash: Hasher)
    requires s.nextId + |inputs| < U64Limit
    ensures var r := CreateAll(s, inputs, now, hash);
            && r.store.nextId == s.nextId + |inputs|
            && (forall i :: 0 <= i < |inputs| && r.out[i].Success? ==> r.out[i].value.id == s.nextId + i)
    decreases |inputs|
  {
    if inputs != [] {
      var first := CreateUser(s, inputs[0], now, hash);
      CreateAllAssignsConsecutiveIds(first.store, inputs[1..], now, hash);
      var rest := CreateAll(first.store, inputs[1..], now, hash);
      var r := CreateAll(s, inputs, now, hash);
      forall i | 0 <= i < |inputs| && r.out[i].Success?
        ensures r.out[i].value.id == s.nextId + i
      {
        if i > 0 {
          assert r.out[i] == rest.out[i - 1];
        }
      }
    }
  }

  /** Below the wrap-around, a batch of creates keeps the store valid, grows it
      by the number of successes, keeps every earlier user, and leaves each
      successful user stored under its id. */
  lemma {:induction false} CreateAllStoresEachUser(s: Store, inputs: seq<NewUser>, now: Timestamp, hash: Hasher)
    requires Valid(s) && s.nextId + |inputs| < U64Limit
    ensures var r := CreateAll(s, inputs, now, hash);
            && Valid(r.store)
            && |r.store.users| == |s.users| + Successes(r.out)
            && (forall k :: k in s.users ==> k in r.store.users && r.store.users[k] == s.users[k])
            && (forall i :: 0 <= i < |inputs| && r.out[i].Success? ==>
                  GetUser(r.store, r.out[i].value.id) == Some(r.out[i].value))
    decreases |inputs|
  {
    if inputs != [] {
      var first := CreateUser(s, inputs[0], now, hash);
      CreateKeepsValid(s, inputs[0], now, hash);
      CreateAllStoresEachUser(first.store, inputs[1..], now, hash);
      var rest := CreateAll(first.store, inputs[1..], now, hash);
      var r := CreateAll(s, inputs, now, hash);
      assert r.out == [first.out] + rest.out;
      assert r.out[1..] == rest.out;
      forall i | 0 <= i < |inputs| && r.out[i].Success?
        ensures GetUser(r.store, r.out[i].value.id) == Some(r.out[i].value)
      {
        if i == 0 {
          assert first.out.value.id in first.store.users;
        } else {
          assert r.out[i] == rest.out[i - 1];
        }
      }
    }
  }

  /** From a new store, n creates hand out the ids 1, 2, …, n: pairwise
      distinct, each successful user retrievable under its id. */
  lemma FreshStoreIdsCountFromOne(inputs: seq<NewUser>, now: Timestamp, hash: Hasher)
    requires |inputs| + 1 < U64Limit
    ensures var r := CreateAll(New(), inputs, now, hash);
            && (forall i :: 0 <= i < |inputs| && r.out[i].Success? ==> r.out[i].value.id == i + 1)
            && (forall i, j :: 0 <= i < j < |inputs| && r.out[i].Success? && r.out[j].Success? ==>
                  r.out[i].value.id != r.out[j].value.id)
            && |r.store.users| == Successes(r.out)
  {
    CreateAllAssignsConsecutiveIds(New(), inputs, now, hash);
    CreateAllStoresEachUser(New(), inputs, now, hash);
  }
}

=== FILE: wrappers.dfy ===
/** Rust's `Option` and `Result`, shared by the proxy and the user store. */
module Wrappers {

  datatype Option<+T> = None | Some(value: T) {

    /** The wrapped value, or `default` when there is none (Rust's `unwrap_or`). */
    function GetOr(default: T): T {
      match this
      case Some(v) => v
      case None => default
    }
  }

  datatype Result<+R, +E> = Success(value: R) | Failure(error: E)
}
